=== FILE: README.md ===
# TikTok order data dashboard: cache, paging and export model

This project models the data path of a partner dashboard that lists marketplace
orders from a spreadsheet backend.

- **Listing endpoint** (`app/api/tiktok/route.ts`). `fetchAllData` keeps the full row set in a
  module-level cache with a five-minute freshness window. It asks the backend only when the cache
  is absent or stale. `GET` rejects an unconfigured backend URL, serves one page of 20 rows and
  reports `hasMore`, `totalRows` and `totalShown`.
- **Data page** (`app/data-tiktok/page.tsx`).
  - The Previous, Next, apply and reset controls move a page cursor.
  - The table shows the first row's keys minus the hidden columns. It numbers rows across pages
    and shows a dash for falsy cells.
  - The Excel export drops the hidden columns from every row and sizes every column. It names
    the file after the chosen date range.

Everything is pure Dafny over sequences. The clock reading (`Date.now()`), the backend's answer
and today's date (the date part of `new Date().toISOString()`, so the UTC date) are parameters. A fetch is not performed. The upstream answer is an input, and
the result records whether the backend was asked (`fetched`).

Modules, one per concern:

- `Outcomes`: `Option` (for `null`/`undefined`) and `Result` (a value or a thrown error message).
- `Values`: cell values (`Str`, `Num`, `Null`) and rows as key/value sequences in `Object.keys`
  order. Also property access, JavaScript truthiness and `String(..)`.
- `Paging`: `Array.prototype.slice`, including its negative-index rule. Also the page window,
  `hasMore`, the last reachable page, and the proof that pages `1..last` concatenate back to all
  the rows.
- `Listing`: the cache state machine (`FetchAllData`), a replay of many calls, and the `GET`
  handler.
- `Cursor`: the client's page cursor and its event handlers.
- `Columns`: hiding columns from key lists and rows.
- `Table`: header row, cell display and row numbers.
- `Export`: export rows, column widths, the file name with its read-back, and `exportToExcel`.

Three points of the code's behaviour that the model keeps as written:

- The listing `GET` reads only `page`. It applies no date filter and honours no
  `clearCache` flag, so the Refresh button is served from the cache like any other request.
- The export endpoint does not go through the cache.
- The export endpoint's `GET` takes no request, so it ignores `startDate` and `endDate`. The
  workbook holds every row while its file name carries the chosen date range. `ExportToExcel`
  takes that endpoint's answer as an input.

## Model

| member | source | states |
|---|---|---|
| Values.Get | app/data-tiktok/page.tsx:303 | property access is `undefined` exactly when the key is not among the row's keys, and a found value is an entry of the row (own properties only, see Left out) |
| Values.GetEntry | app/data-tiktok/page.tsx:92 | in a row with distinct keys, reading an entry's key returns that entry's value |
| Values.Natural | app/data-tiktok/page.tsx:105 | the decimal form of a natural number is non-empty and has no leading zero: it starts with `0` only when it is exactly `"0"`, for zero |
| Values.NaturalRoundTrip | app/data-tiktok/page.tsx:105 | the decimal form of `n` consists of digits only and reads back to `n` |
| Values.Render | app/data-tiktok/page.tsx:105 | `String(v)`: a string is its own text, a number gives a non-empty text and `null` gives "null" |
| Values.RenderNumberRoundTrip | app/data-tiktok/page.tsx:105 | `String(n)` starts with `-` exactly for negative `n`; the rest is a non-empty digit string without leading zeros that reads back to the magnitude of `n`, which fixes the text and its length |
| Values.Text | app/data-tiktok/page.tsx:105 | the `String(row[key] or '')` text is non-empty exactly when the value is truthy, and is then the value's string form |
| Paging.ClampIndex | app/api/tiktok/route.ts:60 | a slice bound is clipped to the length; negative bounds count back from the end, floored at 0 |
| Paging.Slice | app/api/tiktok/route.ts:60 | for bounds `0 <= start <= end` the slice is the sub-sequence between the clipped bounds |
| Paging.PageOf | app/api/tiktok/route.ts:58-60 | for page >= 1 the page is rows `[(page-1)*20, min(page*20, n))`; it has at most 20 rows, is empty once the start index reaches `n`, and its i-th row is row `startIndex + i` |
| Paging.HasMoreMeansRowsBeyond | app/api/tiktok/route.ts:59-61 | `hasMore` holds iff `page*20 < n` |
| Paging.LastPage | app/api/tiktok/route.ts:58-61 | there is a first page >= 1 whose `hasMore` is false; every earlier page has `hasMore`; for non-empty data it starts inside the rows |
| Paging.PagesThroughIsPrefix | app/api/tiktok/route.ts:58-60 | pages 1..k concatenated are the first `min(20k, n)` rows |
| Paging.ReassemblePages | app/api/tiktok/route.ts:58-68 | concatenating pages 1..k, k the first page without `hasMore`, gives back all rows in order |
| Paging.FortyFiveRows | app/api/tiktok/route.ts:58-61 | with 45 rows: page 1 has 20 and more follow, page 3 has 5 and is last, page 4 is empty |
| Listing.FetchAllData | app/api/tiktok/route.ts:10-39 | no fetch iff the cache is present (an empty array counts) and `now - cacheTimestamp < 300000`, returning the cached rows with the state unchanged; a successful fetch stores the rows with the `now` read on entry; an HTTP failure or payload error fails with its message and leaves the cache as it was |
| Listing.HitIgnoresUpstream | app/api/tiktok/route.ts:14-16 | on a fresh cache the outcome does not depend on the backend |
| Listing.StaleAtWindowEdge | app/api/tiktok/route.ts:8-14 | exactly 300000 ms after the fetch the cache is stale (strict `<`), one ms earlier it is fresh |
| Listing.NoRefetchWithinWindow | app/api/tiktok/route.ts:6-39 | any number of calls whose clocks lie within the window opened by the stored timestamp make no fetch and leave the cache unchanged |
| Listing.SecondCallWithinWindowIsServedFromCache | app/api/tiktok/route.ts:14-36 | a cold call that succeeds, followed by a call within five minutes, fetches once in total |
| Listing.Failed | app/api/tiktok/route.ts:70-76 | the error envelope has status 500; its message is the thrown one when that is non-empty and "Failed to fetch data" otherwise |
| Listing.HandleGet | app/api/tiktok/route.ts:41-77 | an empty URL gives the 500 "not configured" response with no fetch and no cache change; otherwise the cache follows `fetchAllData`, a failure gives exactly the 500 envelope of the thrown message with the cache unchanged, and a listing carries the page slice, `hasMore` iff `page*20 < n`, `totalRows == n`, `totalShown` the page's length |
| Listing.ServedRowsAreConsecutive | app/api/tiktok/route.ts:58-68 | the i-th served row is row `startIndex + i` of the full set |
| Cursor.HandlePrevious | app/data-tiktok/page.tsx:125-129 | the page drops by one only when it is above 1; nothing else changes, and the cursor stays >= 1 |
| Cursor.HandleNext | app/data-tiktok/page.tsx:131-135 | the page rises by exactly one iff `hasMore`; nothing else changes |
| Cursor.HandleFilterApply | app/data-tiktok/page.tsx:137-140 | the page becomes 1; the dates stay (the only button wired to this handler is commented out at app/data-tiktok/page.tsx:247-252, so the shipped page never raises it) |
| Cursor.HandleFilterReset | app/data-tiktok/page.tsx:142-146 | both dates become `''` and the page becomes 1 |
| Cursor.SetStartDate | app/data-tiktok/page.tsx:229 | the start date input changes the start date only; the page does not move |
| Cursor.SetEndDate | app/data-tiktok/page.tsx:241 | the end date input changes the end date only |
| Cursor.ReceiveListing | app/data-tiktok/page.tsx:42-45 | a successful listing response sets `hasMore` and nothing else in the cursor |
| Cursor.CursorStaysValid | app/data-tiktok/page.tsx:125-146 | every sequence of events keeps the page >= 1 |
| Cursor.PageNeverBelowOne | app/data-tiktok/page.tsx:11 | from the initial state (page 1) no event sequence leads below page 1 |
| Cursor.PreviousUndoesNext | app/data-tiktok/page.tsx:125-135 | Previous after a Next that moved returns to the same state |
| Cursor.NextStaysWithinRows | app/data-tiktok/page.tsx:131-135 | following Next on the server's own `hasMore` never passes the last page holding rows |
| Columns.VisibleKeys | app/data-tiktok/page.tsx:149 | the result is an order-preserving subsequence of the keys holding exactly the keys not hidden |
| Columns.ProjectRow | app/data-tiktok/page.tsx:88-96 | the projected row is an order-preserving subsequence of the row's entries with no hidden key and every non-hidden entry |
| Columns.KeysOfProjection | app/data-tiktok/page.tsx:88-96 | the projected row's keys are the row's visible keys, in order |
| Columns.GetOfProjection | app/data-tiktok/page.tsx:88-96 | in the projected row a hidden key is undefined and every other key has its original value |
| Table.Headers | app/data-tiktok/page.tsx:148-149 | no headers without data; otherwise exactly the first row's non-hidden keys, in their order |
| Table.DisplayCell | app/data-tiktok/page.tsx:303 | a cell is never blank; it is `-` iff the value is falsy (or literally `-`) |
| Table.DisplayAgreesWithExportText | app/data-tiktok/page.tsx:105 | the shown cell is the export's cell text, with empty text shown as `-` |
| Table.RowNumberIsPosition | app/data-tiktok/page.tsx:296 | the number shown for the i-th served row is its 1-based position in the full row set |
| Table.RowNumbersContinueAcrossPages | app/data-tiktok/page.tsx:296 | after a full page p, the first row of page p+1 is the row that follows page p's last row in the full set, and its number is one higher |
| Export.ExportRows | app/data-tiktok/page.tsx:88-96 | the export keeps row count and order, and row i is row i of the input with the hidden columns dropped |
| Export.ExportRowsProjectColumns | app/data-tiktok/page.tsx:88-96 | each exported row has exactly the source row's non-hidden keys in order, reads `undefined` on a hidden key and the source value on every other key |
| Export.HeadersAreExportColumns | app/data-tiktok/page.tsx:102 | for the same rows, the table's headers are exactly the columns of the first exported row (the table reads the first row of the current page, the export the first row of its own fetch; see Left out) |
| Export.MapRowsAt | app/data-tiktok/page.tsx:105 | the i-th element of `rows.map(f)` is `f` of row i |
| Export.CellLengthsAt | app/data-tiktok/page.tsx:105 | the i-th mapped length is the length of row i's cell text |
| Export.MaxOfIsMaximum | app/data-tiktok/page.tsx:103-106 | `Math.max(base, ...xs)` bounds the base and every element and equals the base or one of the elements |
| Export.MaxCellLengthIsMaximum | app/data-tiktok/page.tsx:103-106 | a column's maximum bounds the key length and every cell length, and equals one of them |
| Export.ColumnWidth | app/data-tiktok/page.tsx:103-107 | a width is between 2 and 50, at most two more than the column's maximum length, and equal to 50 or to that maximum plus two (so `min(maxLength + 2, 50)`) |
| Export.ColumnWidthFits | app/data-tiktok/page.tsx:101-107 | a width is two more than the key and every cell (a falsy cell counting as empty) unless capped at 50, it equals 50 or two more than the key or some cell, and it is 50 only when the key or some cell is at least 48 long |
| Export.LongestEntry | app/data-tiktok/page.tsx:103-106 | one pass over the rows finds the column's maximum entry length |
| Export.Widths | app/data-tiktok/page.tsx:102-108 | the mapped widths have one entry per key, each that key's column width |
| Export.ColumnWidths | app/data-tiktok/page.tsx:101-109 | a loop over the keys yields one width per key, in order, each the column's width and at most 50 |
| Export.FilenameSuffix | app/data-tiktok/page.tsx:111-113 | the suffix is empty iff both dates are empty |
| Export.Filename | app/data-tiktok/page.tsx:114 | the name is `data-tiktok`, then the date-range suffix, then `_<today>.xlsx`; without dates it is `data-tiktok_<today>.xlsx` |
| Export.SuffixRoundTrip | app/data-tiktok/page.tsx:111-113 | for date inputs without `_` that are not the placeholder words, the suffix reads back to the two inputs, where the reading rejects an empty part, so an open bound must be written as `start`/`end` |
| Export.FilenamesDistinguishRanges | app/data-tiktok/page.tsx:111-114 | on one day, two such date ranges give the same file name only if they are equal |
| Export.ExportToExcel | app/data-tiktok/page.tsx:76-122 | a failed fetch alerts "Failed to export data: Failed to fetch all data"; an empty result alerts "No data to export" and writes no workbook; otherwise one sheet "Data TikTok" holds the projected rows, widths per column and the date-range file name |

## Left out

- Date-range filtering, the WIB offset and `clearCache`: the client sends these parameters
  (app/data-tiktok/page.tsx:29-37), but the listing handler reads only `page`.
- Query-string parsing: `page` is given as an integer. `parseInt` of arbitrary text, `NaN`
  and the `'1'` default are not modelled. Negative and zero pages follow JavaScript `slice` exactly.
- `app/api/tiktok/export/route.ts`: an uncached fetch wrapper. Its error handling is the same
  as `FetchAllData`'s. `ExportToExcel` takes its answer as a `Result`.
- `lib/googleSheets.ts`, the NextAuth route, `components/DashboardLayout.tsx` and
  `app/dashboard/page.tsx`: credential lookup, sessions and routing are not part of this model.
- Network access, `await`, React state scheduling and `useEffect` re-fetching, all JSX, and the
  XLSX library (`json_to_sheet`, `writeFile`) are not modelled. The loading and error flags of the
  page are not modelled either.
- The race between two concurrent refreshes of the module-level cache: calls are modelled one
  after another.
- Cell values are strings, integers and `null`. Fractional numbers, exponent notation for very
  large numbers, booleans and nested objects are not modelled.
- Strings stand for JavaScript strings, so `length` counts their elements. The model does not
  split characters outside the Basic Multilingual Plane into UTF-16 code units.
- Column names are assumed not to be `Object.prototype` member names (`toString`, `constructor`,
  `__proto__` and the like). Property access on such a name finds an inherited member instead of
  `undefined`, and assigning `__proto__` does not create an own key, so `Values.Get` and
  `Columns.ProjectRow` would not describe those columns.
- The table's headers come from the first row of the current listing page
  (app/data-tiktok/page.tsx:148), and the export's columns from the first row of the separate
  export fetch (app/data-tiktok/page.tsx:80, 102). They agree only when both see the same rows
  (page 1 of an unchanged data set). The model does not relate the two fetches.
- Keys are assumed to be in `Object.keys` order already. Removing keys keeps that order.
- `Upstream`: `PayloadError(msg)` stands for every error thrown after the request is sent
  (app/api/tiktok/route.ts:19-31): a rejected `fetch`, a body that is not JSON, or a JSON
  body whose `error` field is truthy. Each keeps the cache and fails with its own message. A
  body without `data` is not modelled.
- `Math.max` over a spread of very many rows can exceed the engine's argument limit. The model
  has no such limit.

=== FILE: columns.dfy ===
/** Hiding columns: dropping the `hiddenColumns` keys from key lists and from rows. */
module Columns {
  import opened Outcomes
  import opened Values

  /** The columns the data page never shows or exports. */
  const HiddenColumns: seq<Key> := ["db_system_created_on", "db_pk_pesanan"]

  /** `a` is `b` with some elements left out, the rest in their original order. */
  predicate IsSubsequence<T(==)>(a: seq<T>, b: seq<T>)
    decreases |b|
  {
    if a == [] then true
    else if b == [] then false
    else if a[0] == b[0] then IsSubsequence(a[1..], b[1..])
    else IsSubsequence(a, b[1..])
  }

  /** `keys.filter(k => !hidden.includes(k))`. */
  function VisibleKeys(keys: seq<Key>, hidden: seq<Key>): (r: seq<Key>)
    ensures IsSubsequence(r, keys)
    ensures forall i :: 0 <= i < |r| ==> r[i] !in hidden
    ensures forall k :: k in r <==> k in keys && k !in hidden
  {
    if keys == [] then []
    else
      var rest := VisibleKeys(keys[1..], hidden);
      assert forall k :: k in keys <==> k == keys[0] || k in keys[1..];
      if keys[0] in hidden then
        SubsequenceOfTail(rest, keys);
        rest
      else
        [keys[0]] + rest
  }

  /** The row object built by copying every non-hidden key of `row`. */
  function ProjectRow(row: Row, hidden: seq<Key>): (r: Row)
    ensures IsSubsequence(r, row)
    ensures forall i :: 0 <= i < |r| ==> r[i].0 !in hidden
    ensures forall i :: 0 <= i < |row| && row[i].0 !in hidden ==> row[i] in r
  {
    if row == [] then []
    else
      var rest := ProjectRow(row[1..], hidden);
      assert forall i :: 1 <= i < |row| ==> row[i] == row[1..][i - 1];
      if row[0].0 in hidden then
        SubsequenceOfTail(rest, row);
        rest
      else
        [row[0]] + rest
  }

  /** A subsequence of the tail is a subsequence of the whole. */
  lemma {:induction false} SubsequenceOfTail<T>(a: seq<T>, b: seq<T>)
    requires b != []
    requires IsSubsequence(a, b[1..])
    ensures IsSubsequence(a, b)
    decreases |b|, 0
  {
    if a != [] && a[0] == b[0] {
      SubsequenceDropHead(a, b[1..]);
    }
  }

  /** Dropping the first element keeps a subsequence a subsequence. */
  lemma {:induction false} SubsequenceDropHead<T>(a: seq<T>, b: seq<T>)
    requires a != []
    requires IsSubsequence(a, b)
    ensures IsSubsequence(a[1..], b)
    decreases |b|, 1
  {
    if a[0] == b[0] {
      SubsequenceOfTail(a[1..], b);
    } else {
      SubsequenceDropHead(a, b[1..]);
      SubsequenceOfTail(a[1..], b);
    }
  }

  /** The projected row's keys are the visible keys of the row. */
  lemma {:induction false} KeysOfProjection(row: Row, hidden: seq<Key>)
    ensures Keys(ProjectRow(row, hidden)) == VisibleKeys(Keys(row), hidden)
  {
    if row != [] {
      var rest := ProjectRow(row[1..], hidden);
      KeysOfProjection(row[1..], hidden);
      KeysOfCons(row[0], row[1..]);
      assert [row[0]] + row[1..] == row;
      if row[0].0 !in hidden {
        KeysOfCons(row[0], rest);
      }
    }
  }

  lemma KeysOfCons(e: (Key, Value), row: Row)
    ensures Keys([e] + row) == [e.0] + Keys(row)
  {
  }

  /** Reading a key of the projected row gives `undefined` for a hidden key and the
      original value otherwise. */
  lemma {:induction false} GetOfProjection(row: Row, hidden: seq<Key>, k: Key)
    ensures Get(ProjectRow(row, hidden), k) == if k in hidden then None else Get(row, k)
  {
    if row != [] {
      GetOfProjection(row[1..], hidden, k);
    }
  }
}

=== FILE: cursor.dfy ===
/** The client's page cursor: the page being viewed, whether the last listing reported
    more rows, and the two date inputs, with the buttons and inputs that change them. */
module Cursor {
  import opened Paging

  /** The page-related state of the data page. */
  datatype View = View(currentPage: int, hasMore: bool, startDate: string, endDate: string)

  /** The state when the page mounts. */
  const InitialView := View(1, true, "", "")

  /** The cursor never points before the first page. */
  predicate Valid(v: View)
  {
    v.currentPage >= 1
  }

  /** The Previous button: one page back unless already on the first page. */
  function HandlePrevious(v: View): (w: View)
    ensures v.currentPage > 1 ==> w == v.(currentPage := v.currentPage - 1)
    ensures v.currentPage <= 1 ==> w == v
    ensures Valid(v) ==> Valid(w)
  {
    if v.currentPage > 1 then v.(currentPage := v.currentPage - 1) else v
  }

  /** The Next button: one page on exactly when the last listing reported more rows. */
  function HandleNext(v: View): (w: View)
    ensures w.currentPage == v.currentPage + (if v.hasMore then 1 else 0)
    ensures w.(currentPage := v.currentPage) == v
    ensures Valid(v) ==> Valid(w)
  {
    if v.hasMore then v.(currentPage := v.currentPage + 1) else v
  }

  /** Applying the filter returns to the first page and keeps the dates. */
  function HandleFilterApply(v: View): (w: View)
    ensures w.currentPage == 1 && w.hasMore == v.hasMore
    ensures w.startDate == v.startDate && w.endDate == v.endDate
  {
    v.(currentPage := 1)
  }

  /** Resetting the filter clears both dates and returns to the first page. */
  function HandleFilterReset(v: View): (w: View)
    ensures w.currentPage == 1 && w.startDate == "" && w.endDate == "" && w.hasMore == v.hasMore
  {
    v.(currentPage := 1, startDate := "", endDate := "")
  }

  /** Editing a date input changes only that date; the page stays where it is. */
  function SetStartDate(v: View, d: string): (w: View)
    ensures w.startDate == d && w.(startDate := v.startDate) == v
  {
    v.(startDate := d)
  }

  function SetEndDate(v: View, d: string): (w: View)
    ensures w.endDate == d && w.(endDate := v.endDate) == v
  {
    v.(endDate := d)
  }

  /** A successful listing response records its `hasMore` flag. */
  function ReceiveListing(v: View, hasMore: bool): (w: View)
    ensures w.hasMore == hasMore && w.(hasMore := v.hasMore) == v
  {
    v.(hasMore := hasMore)
  }

  /** The things that change the cursor. */
  datatype Event =
    | Previous | Next | FilterApply | FilterReset
    | StartDateInput(d: string) | EndDateInput(d: string) | Listed(hasMore: bool)

  /** The cursor after one event. */
  function Step(v: View, e: Event): View
  {
    match e
    case Previous => HandlePrevious(v)
    case Next => HandleNext(v)
    case FilterApply => HandleFilterApply(v)
    case FilterReset => HandleFilterReset(v)
    case StartDateInput(d) => SetStartDate(v, d)
    case EndDateInput(d) => SetEndDate(v, d)
    case Listed(m) => ReceiveListing(v, m)
  }

  /** The cursor after a sequence of events, first to last. */
  function Run(v: View, events: seq<Event>): View
    decreases |events|
  {
    if events == [] then v else Run(Step(v, events[0]), events[1..])
  }

  /** Whatever the user does from mount, the cursor stays on page 1 or later. */
  lemma {:induction false} CursorStaysValid(v: View, events: seq<Event>)
    requires Valid(v)
    ensures Valid(Run(v, events))
    decreases |events|
  {
    if events != [] {
      CursorStaysValid(Step(v, events[0]), events[1..]);
    }
  }

  lemma PageNeverBelowOne(events: seq<Event>)
    ensures Run(InitialView, events).currentPage >= 1
  {
    CursorStaysValid(InitialView, events);
  }

  /** Previous undoes Next whenever Next moved. */
  lemma PreviousUndoesNext(v: View)
    requires Valid(v) && v.hasMore
    ensures HandlePrevious(HandleNext(v)) == v
  {
  }

  /** Following Next on the listing's own `hasMore` never goes past the last page of rows. */
  lemma NextStaysWithinRows(v: View, n: nat)
    requires 1 <= v.currentPage <= LastPage(n)
    ensures HandleNext(ReceiveListing(v, HasMore(n, v.currentPage))).currentPage <= LastPage(n)
  {
  }
}

=== FILE: export.dfy ===
/** The Excel export of the data page: rows without the hidden columns, a width for
    every column, and a file name that carries the chosen date range. */
module Export {
  import opened Outcomes
  import opened Values
  import opened Columns
  import opened Table

  /** The widest a column may be, in characters. */
  const MaxWidth: nat := 50

  /** The name of the single worksheet. */
  const SheetName := "Data TikTok"

  /** Every fetched row with the hidden columns dropped, in the fetched order. */
  function ExportRows(rows: seq<Row>, hidden: seq<Key>): (r: seq<Row>)
    ensures |r| == |rows|
    ensures forall i :: 0 <= i < |rows| ==> r[i] == ProjectRow(rows[i], hidden)
  {
    seq(|rows|, i requires 0 <= i < |rows| => ProjectRow(rows[i], hidden))
  }

  /** Each exported row has exactly the visible keys of its source row, in order, reads
      `undefined` on a hidden key and the source row's value on every other key. */
  lemma ExportRowsProjectColumns(rows: seq<Row>, hidden: seq<Key>, i: nat, k: Key)
    requires i < |rows|
    ensures Keys(ExportRows(rows, hidden)[i]) == VisibleKeys(Keys(rows[i]), hidden)
    ensures Get(ExportRows(rows, hidden)[i], k) == if k in hidden then None else Get(rows[i], k)
  {
    KeysOfProjection(rows[i], hidden);
    GetOfProjection(rows[i], hidden, k);
  }

  /** Given the same rows, the table's header row names exactly the columns of the first
      exported row, in order. */
  lemma HeadersAreExportColumns(rows: seq<Row>, hidden: seq<Key>)
    requires rows != []
    ensures Headers(rows, hidden) == Keys(ExportRows(rows, hidden)[0])
  {
    KeysOfProjection(rows[0], hidden);
  }

  function Max(a: nat, b: nat): nat { if a >= b then a else b }

  /** Length of the text one row contributes to a column (falsy cells contribute nothing). */
  function CellLength(row: Row, key: Key): nat
  {
    |Text(Get(row, key))|
  }

  /** `rows.map(f)` for a length-valued `f`, built from the last row back. */
  function MapRows(f: Row -> nat, rows: seq<Row>): (xs: seq<nat>)
    ensures |xs| == |rows|
  {
    if rows == [] then [] else MapRows(f, rows[..|rows| - 1]) + [f(rows[|rows| - 1])]
  }

  /** The i-th mapped value is `f` of the i-th row. */
  lemma {:induction false} MapRowsAt(f: Row -> nat, rows: seq<Row>, i: nat)
    requires i < |rows|
    ensures MapRows(f, rows)[i] == f(rows[i])
  {
    var last := |rows| - 1;
    var init := rows[..last];
    if i < last {
      MapRowsAt(f, init, i);
      assert init[i] == rows[i];
    }
  }

  /** `rows.map(row => String(row[key] || '').length)`. */
  function CellLengths(key: Key, rows: seq<Row>): (xs: seq<nat>)
    ensures |xs| == |rows|
  {
    MapRows(row => CellLength(row, key), rows)
  }

  /** The i-th mapped length is the length of row i's cell text. */
  lemma CellLengthsAt(key: Key, rows: seq<Row>, i: nat)
    requires i < |rows|
    ensures CellLengths(key, rows)[i] == CellLength(rows[i], key)
  {
    MapRowsAt(row => CellLength(row, key), rows, i);
  }

  /** `Math.max(base, ...xs)`. */
  function MaxOf(base: nat, xs: seq<nat>): (m: nat)
    ensures m >= base
  {
    if xs == [] then base else Max(MaxOf(base, xs[..|xs| - 1]), xs[|xs| - 1])
  }

  /** The maximum bounds the base and every element, and is the base or one of the elements. */
  lemma {:induction false} MaxOfIsMaximum(base: nat, xs: seq<nat>)
    ensures forall i :: 0 <= i < |xs| ==> xs[i] <= MaxOf(base, xs)
    ensures MaxOf(base, xs) == base || exists i :: 0 <= i < |xs| && MaxOf(base, xs) == xs[i]
  {
    if xs != [] {
      var last := |xs| - 1;
      var init := xs[..last];
      MaxOfIsMaximum(base, init);
      assert forall i :: 0 <= i < last ==> init[i] == xs[i];
    }
  }

  /** `Math.max(key.length, ...rows.map(row => String(row[key] || '').length))`. */
  function MaxCellLength(key: Key, rows: seq<Row>): (m: nat)
    ensures m >= |key|
  {
    MaxOf(|key|, CellLengths(key, rows))
  }

  /** The column's maximum bounds the key and every cell, and is the key or one of the cells. */
  lemma MaxCellLengthIsMaximum(key: Key, rows: seq<Row>)
    ensures forall i :: 0 <= i < |rows| ==> CellLength(rows[i], key) <= MaxCellLength(key, rows)
    ensures var m := MaxCellLength(key, rows);
            m == |key| || exists i :: 0 <= i < |rows| && m == CellLength(rows[i], key)
  {
    var xs := CellLengths(key, rows);
    MaxOfIsMaximum(|key|, xs);
    forall i | 0 <= i < |rows| ensures xs[i] == CellLength(rows[i], key) {
      CellLengthsAt(key, rows, i);
    }
  }

  /** `Math.min(maxLength + 2, maxWidth)`. */
  function Cap(maxLength: nat): nat
  {
    if maxLength + 2 < MaxWidth then maxLength + 2 else MaxWidth
  }

  /** The `wch` of a column: two characters wider than its widest entry, capped at `MaxWidth`. */
  function ColumnWidth(key: Key, rows: seq<Row>): (w: nat)
    ensures 2 <= w <= MaxWidth
    ensures w <= MaxCellLength(key, rows) + 2
    ensures w == MaxWidth || w == MaxCellLength(key, rows) + 2
  {
    Cap(MaxCellLength(key, rows))
  }

  /** A column is two characters wider than its key and every entry unless it is capped at
      `MaxWidth`, its width comes from the key, an entry, or the cap, and the cap is reached only
      when the key or an entry is that wide. Falsy cells count as empty. */
  lemma ColumnWidthFits(key: Key, rows: seq<Row>)
    ensures var w := ColumnWidth(key, rows);
            && (|key| + 2 <= w || w == MaxWidth)
            && (forall i :: 0 <= i < |rows| ==> |Text(Get(rows[i], key))| + 2 <= w || w == MaxWidth)
            && (w == MaxWidth || w == |key| + 2 || exists i :: 0 <= i < |rows| && w == |Text(Get(rows[i], key))| + 2)
            && (w == MaxWidth ==>
                  |key| + 2 >= MaxWidth || exists i :: 0 <= i < |rows| && |Text(Get(rows[i], key))| + 2 >= MaxWidth)
  {
    MaxCellLengthIsMaximum(key, rows);
    assert forall i :: 0 <= i < |rows| ==> CellLength(rows[i], key) == |Text(Get(rows[i], key))|;
  }

  /** The longest entry of a column, found by one pass over the rows. */
  method LongestEntry(key: Key, rows: seq<Row>) returns (longest: nat)
    ensures longest == MaxCellLength(key, rows)
  {
    longest := |key|;
    var i := 0;
    while i < |rows|
      invariant 0 <= i <= |rows|
      invariant longest == MaxOf(|key|, CellLengths(key, rows[..i]))
    {
      assert rows[..i + 1][..i] == rows[..i];
      longest := Max(longest, CellLength(rows[i], key));
      i := i + 1;
    }
    assert rows[..|rows|] == rows;
  }

  /** `keys.map(key => ({ wch: ... }))`: one width per column, in column order. */
  function Widths(keys: seq<Key>, rows: seq<Row>): (ws: seq<nat>)
    ensures |ws| == |keys|
    ensures forall j :: 0 <= j < |keys| ==> ws[j] == ColumnWidth(keys[j], rows)
  {
    if keys == [] then []
    else
      var init := keys[..|keys| - 1];
      assert forall j :: 0 <= j < |init| ==> init[j] == keys[j];
      Widths(init, rows) + [ColumnWidth(keys[|keys| - 1], rows)]
  }

  /** The widths of the columns `keys`, computed one column at a time (the export passes the
      first row's keys). */
  method ColumnWidths(keys: seq<Key>, rows: seq<Row>) returns (widths: seq<nat>)
    ensures |widths| == |keys|
    ensures forall j :: 0 <= j < |widths| ==> widths[j] == ColumnWidth(keys[j], rows)
    ensures forall j :: 0 <= j < |widths| ==> widths[j] <= MaxWidth
  {
    widths := [];
    var j := 0;
    while j < |keys|
      invariant 0 <= j <= |keys|
      invariant widths == Widths(keys[..j], rows)
    {
      var longest := LongestEntry(keys[j], rows);
      assert keys[..j + 1][..j] == keys[..j];
      widths := widths + [Cap(longest)];
      j := j + 1;
    }
    assert keys[..|keys|] == keys;
  }

  /** The part of the file name that names the date range; an open bound reads "start" or "end". */
  function FilenameSuffix(startDate: string, endDate: string): (r: string)
    ensures r == "" <==> startDate == "" && endDate == ""
  {
    if startDate != "" || endDate != "" then
      "_" + (if startDate != "" then startDate else "start") + "_to_" + (if endDate != "" then endDate else "end")
    else ""
  }

  /** `data-tiktok<range>_<today>.xlsx`, with `today` the date part of the current ISO timestamp. */
  function Filename(startDate: string, endDate: string, today: string): (r: string)
    ensures |r| >= 17 && r[..11] == "data-tiktok"
    ensures r[|r| - 5..] == ".xlsx"
    ensures startDate == "" && endDate == "" ==> r == "data-tiktok_" + today + ".xlsx"
    ensures |r| == 17 + |FilenameSuffix(startDate, endDate)| + |today|
    ensures r[|r| - |today| - 6..] == "_" + today + ".xlsx"
    ensures r[11..|r| - |today| - 6] == FilenameSuffix(startDate, endDate)
  {
    var x := FilenameSuffix(startDate, endDate);
    var r := "data-tiktok" + x + "_" + today + ".xlsx";
    assert r[11..11 + |x|] == x;
    assert r[11 + |x|..] == "_" + today + ".xlsx";
    r
  }

  /** A date input value the suffix can be read back from: no underscore, and not the
      placeholder words. Values of a date picker (`""` or `YYYY-MM-DD`) are such. */
  predicate Recoverable(d: string)
  {
    '_' !in d && d != "start" && d != "end"
  }

  /** Position of the first `c` in `s`, or `|s|` when there is none. */
  function IndexOf(s: string, c: char): (i: nat)
    ensures i <= |s|
    ensures forall j :: 0 <= j < i ==> s[j] != c
    ensures i < |s| ==> s[i] == c
  {
    if s == [] then 0
    else if s[0] == c then 0
    else 1 + IndexOf(s[1..], c)
  }

  /** Reads a date range back from a file-name suffix; an open bound must be spelled out as the
      placeholder word, so an empty part is not a suffix the export writes. */
  function ParseSuffix(x: string): Option<(string, string)>
  {
    if x == "" then Some(("", ""))
    else if x[0] != '_' then None
    else
      var body := x[1..];
      var i := IndexOf(body, '_');
      if i + 4 > |body| || body[i..i + 4] != "_to_" then None
      else
        var s := body[..i];
        var e := body[i + 4..];
        if s == "" || e == "" then None
        else Some((if s == "start" then "" else s, if e == "end" then "" else e))
  }

  /** The suffix names the date range: it can be read back to the two inputs. */
  lemma SuffixRoundTrip(startDate: string, endDate: string)
    requires Recoverable(startDate) && Recoverable(endDate)
    ensures ParseSuffix(FilenameSuffix(startDate, endDate)) == Some((startDate, endDate))
  {
    var x := FilenameSuffix(startDate, endDate);
    if x != "" {
      var s := if startDate != "" then startDate else "start";
      var e := if endDate != "" then endDate else "end";
      var body := s + "_to_" + e;
      assert x == "_" + body;
      assert x[1..] == body;
      assert forall j :: 0 <= j < |s| ==> body[j] == s[j];
      assert body[|s|] == '_';
      var i := IndexOf(body, '_');
      assert i == |s|;
      assert body[i..i + 4] == "_to_";
      assert body[..i] == s;
      assert body[i + 4..] == e;
    }
  }

  /** Different date ranges give different file names on the same day. */
  lemma FilenamesDistinguishRanges(s1: string, e1: string, s2: string, e2: string, today: string)
    requires Recoverable(s1) && Recoverable(e1) && Recoverable(s2) && Recoverable(e2)
    requires Filename(s1, e1, today) == Filename(s2, e2, today)
    ensures s1 == s2 && e1 == e2
  {
    var x1 := FilenameSuffix(s1, e1);
    var x2 := FilenameSuffix(s2, e2);
    var tail := "_" + today + ".xlsx";
    assert Filename(s1, e1, today) == "data-tiktok" + x1 + tail;
    assert Filename(s2, e2, today) == "data-tiktok" + x2 + tail;
    var f := Filename(s1, e1, today);
    assert x1 == f[11..|f| - |tail|];
    assert x2 == f[11..|f| - |tail|];
    SuffixRoundTrip(s1, e1);
    SuffixRoundTrip(s2, e2);
  }

  /** What pressing the export button produces: an alert, or a one-sheet workbook. */
  datatype ExportOutcome =
    | Alert(message: string)
    | Workbook(sheetName: string, rows: seq<Row>, widths: seq<nat>, filename: string)

  /** `exportToExcel`, given the export endpoint's answer (the full row set or a failure),
      the date inputs, and today's date. */
  method ExportToExcel(fetched: Result<seq<Row>>, startDate: string, endDate: string, today: string)
    returns (out: ExportOutcome)
    ensures fetched.Failure? ==> out == Alert("Failed to export data: Failed to fetch all data")
    ensures fetched.Success? && fetched.value == [] ==> out == Alert("No data to export")
    ensures fetched.Success? && fetched.value != [] ==>
              && out.Workbook?
              && out.sheetName == SheetName
              && out.rows == ExportRows(fetched.value, HiddenColumns)
              && |out.widths| == |Keys(out.rows[0])|
              && (forall j :: 0 <= j < |out.widths| ==> out.widths[j] == ColumnWidth(Keys(out.rows[0])[j], out.rows))
              && out.filename == Filename(startDate, endDate, today)
    ensures out.Workbook? ==> |out.rows| > 0
  {
    if fetched.Failure? {
      return Alert("Failed to export data: Failed to fetch all data");
    }
    var allData := fetched.value;
    if |allData| == 0 {
      return Alert("No data to export");
    }
    var filteredData := ExportRows(allData, HiddenColumns);
    var widths := ColumnWidths(Keys(filteredData[0]), filteredData);
    var dateRangeStr := FilenameSuffix(startDate, endDate);
    var filename := "data-tiktok" + dateRangeStr + "_" + today + ".xlsx";
    out := Workbook(SheetName, filteredData, widths, filename);
  }
}

=== FILE: listing.dfy ===
/** The listing endpoint: the module-level row cache in front of the spreadsheet
    backend (`fetchAllData`) and the `GET` handler that serves one page of it. */
module Listing {
  import opened Outcomes
  import opened Values
  import opened Paging

  /** Freshness window of the cache, in milliseconds (five minutes). */
  const CacheDuration: int := 5 * 60 * 1000

  /** The module-level cache: the last fetched rows (absent before the first success)
      and the clock reading taken when that fetch started. */
  datatype CacheState = CacheState(cachedData: Option<seq<Row>>, cacheTimestamp: int)

  /** The cache when the server process starts. */
  const InitialCache := CacheState(None, 0)

  /** What the backend answers when it is asked: rows, a non-success HTTP status, or any
      other error thrown once the request is sent (a rejected `fetch`, a body that is not
      JSON, or a JSON body whose `error` field is truthy), carrying that error's message. */
  datatype Upstream = Ok(data: seq<Row>) | HttpFail(statusText: string) | PayloadError(msg: string)

  /** One call of `fetchAllData`: what it returns or throws, the cache after it, and
      whether it asked the backend at all. */
  datatype Fetch = Fetch(result: Result<seq<Row>>, cache: CacheState, fetched: bool)

  /** The cache answers by itself at clock reading `now`. An empty cached array counts as
      present: only `null` disables the cache. */
  predicate Fresh(c: CacheState, now: int)
  {
    c.cachedData.Some? && now - c.cacheTimestamp < CacheDuration
  }

  /** `fetchAllData`, with `now` the clock read on entry and `upstream` what the backend
      would answer if asked. */
  function FetchAllData(c: CacheState, now: int, upstream: Upstream): (f: Fetch)
    ensures !f.fetched <==> c.cachedData.Some? && now - c.cacheTimestamp < 300000
    ensures !f.fetched ==> f.result == Success(c.cachedData.value) && f.cache == c
    ensures f.fetched && upstream.Ok? ==>
              f.result == Success(upstream.data) && f.cache == CacheState(Some(upstream.data), now)
    ensures f.fetched && upstream.HttpFail? ==>
              f.result == Failure("Apps Script error: " + upstream.statusText) && f.cache == c
    ensures f.fetched && upstream.PayloadError? ==>
              f.result == Failure(upstream.msg) && f.cache == c
    ensures f.result.Success? ==> f.cache.cachedData == Some(f.result.value)
  {
    if Fresh(c, now) then Fetch(Success(c.cachedData.value), c, false)
    else
      match upstream
      case HttpFail(statusText) => Fetch(Failure("Apps Script error: " + statusText), c, true)
      case PayloadError(msg) => Fetch(Failure(msg), c, true)
      case Ok(data) => Fetch(Success(data), CacheState(Some(data), now), true)
  }

  /** A cache hit ignores whatever the backend would have answered. */
  lemma HitIgnoresUpstream(c: CacheState, now: int, u1: Upstream, u2: Upstream)
    requires Fresh(c, now)
    ensures FetchAllData(c, now, u1) == FetchAllData(c, now, u2)
  {
  }

  /** Exactly `CacheDuration` milliseconds after a fetch the cache is already stale. */
  lemma StaleAtWindowEdge(c: CacheState, u: Upstream)
    requires c.cachedData.Some?
    ensures FetchAllData(c, c.cacheTimestamp + CacheDuration, u).fetched
    ensures !FetchAllData(c, c.cacheTimestamp + CacheDuration - 1, u).fetched
  {
  }

  /** One request as the cache sees it: the clock on entry and the backend's answer. */
  datatype Call = Call(now: int, upstream: Upstream)

  /** The cache after a sequence of calls, and how many of them went to the backend. */
  function Replay(c: CacheState, calls: seq<Call>): (CacheState, nat)
    decreases |calls|
  {
    if calls == [] then (c, 0)
    else
      var f := FetchAllData(c, calls[0].now, calls[0].upstream);
      var (c', n) := Replay(f.cache, calls[1..]);
      (c', n + (if f.fetched then 1 else 0))
  }

  /** Calls whose clocks stay inside the window opened at `t`. */
  predicate WithinWindow(calls: seq<Call>, t: int)
  {
    forall i :: 0 <= i < |calls| ==> t <= calls[i].now < t + CacheDuration
  }

  /** Once a fetch has filled the cache at `t`, later calls inside the window never go to
      the backend and leave the cache as it was. */
  lemma {:induction false} NoRefetchWithinWindow(c: CacheState, calls: seq<Call>)
    requires c.cachedData.Some?
    requires WithinWindow(calls, c.cacheTimestamp)
    ensures Replay(c, calls) == (c, 0)
  {
    if calls != [] {
      assert WithinWindow(calls[1..], c.cacheTimestamp) by {
        forall i | 0 <= i < |calls[1..]| ensures c.cacheTimestamp <= calls[1..][i].now < c.cacheTimestamp + CacheDuration {
          assert calls[1..][i] == calls[i + 1];
        }
      }
      NoRefetchWithinWindow(c, calls[1..]);
    }
  }

  /** Two requests inside the window, the first finding a cold cache and a healthy backend,
      ask the backend once in total. */
  lemma SecondCallWithinWindowIsServedFromCache(c: CacheState, first: Call, second: Call)
    requires !Fresh(c, first.now) && first.upstream.Ok?
    requires first.now <= second.now < first.now + CacheDuration
    ensures Replay(c, [first, second]).1 == 1
  {
    var f := FetchAllData(c, first.now, first.upstream);
    NoRefetchWithinWindow(f.cache, [second]);
    assert [first, second][1..] == [second];
  }

  /** The JSON answer of the listing endpoint. */
  datatype Response =
    | Listing(data: seq<Row>, page: int, hasMore: bool, totalRows: nat, totalShown: nat)
    | ErrorResponse(status: int, error: string)

  /** The message of the unconfigured-endpoint error. */
  const NotConfigured := "GOOGLE_APPS_SCRIPT_URL not configured"

  /** The catch-all error envelope: a thrown error's message, or a fixed text when it is empty. */
  function Failed(message: string): (r: Response)
    ensures r.ErrorResponse? && r.status == 500 && r.error != ""
    ensures message != "" ==> r.error == message
    ensures message == "" ==> r.error == "Failed to fetch data"
  {
    ErrorResponse(500, if message == "" then "Failed to fetch data" else message)
  }

  /** One handled request: the response, the cache after it, and whether the backend was asked. */
  datatype Handled = Handled(response: Response, cache: CacheState, fetched: bool)

  /** `GET`, for the configured backend URL `scriptUrl` and the already parsed page number. */
  function HandleGet(scriptUrl: string, page: int, c: CacheState, now: int, upstream: Upstream): (h: Handled)
    ensures scriptUrl == "" ==> h == Handled(ErrorResponse(500, NotConfigured), c, false)
    ensures scriptUrl != "" ==>
              var f := FetchAllData(c, now, upstream);
              h.cache == f.cache && h.fetched == f.fetched &&
              (f.result.Failure? <==> h.response.ErrorResponse?)
    ensures h.response.ErrorResponse? ==> h.response.status == 500 && h.cache == c
    ensures scriptUrl != "" && FetchAllData(c, now, upstream).result.Failure? ==>
              h.response == Failed(FetchAllData(c, now, upstream).result.message)
    ensures h.response.Listing? ==>
              var all := h.cache.cachedData.value;
              && h.cache.cachedData.Some?
              && h.response.page == page
              && h.response.data == PageOf(all, page)
              && (h.response.hasMore <==> page * Limit < |all|)
              && h.response.totalRows == |all|
              && h.response.totalShown == |h.response.data|
  {
    if scriptUrl == "" then Handled(ErrorResponse(500, NotConfigured), c, false)
    else
      var f := FetchAllData(c, now, upstream);
      match f.result
      case Failure(message) => Handled(Failed(message), f.cache, f.fetched)
      case Success(all) =>
        var data := Slice(all, StartIndex(page), EndIndex(page));
        Handled(Listing(data, page, EndIndex(page) < |all|, |all|, |data|), f.cache, f.fetched)
  }

  /** Each served row sits at `startIndex + index` of the full row set. */
  lemma ServedRowsAreConsecutive(scriptUrl: string, page: int, c: CacheState, now: int, upstream: Upstream, i: int)
    requires page >= 1
    requires HandleGet(scriptUrl, page, c, now, upstream).response.Listing?
    requires 0 <= i < |HandleGet(scriptUrl, page, c, now, upstream).response.data|
    ensures var h := HandleGet(scriptUrl, page, c, now, upstream);
            StartIndex(page) + i < h.response.totalRows &&
            h.response.data[i] == h.cache.cachedData.value[StartIndex(page) + i]
  {
  }
}

=== FILE: outcomes.dfy ===
/** Failure-carrying wrappers shared by the dashboard model. */
module Outcomes {

  /** A value that may be absent: JavaScript's `null`/`undefined` versus a present value. */
  datatype Option<+T> = None | Some(value: T)

  /** The outcome of an operation that either yields a value or throws an `Error` with a message. */
  datatype Result<+T> = Success(value: T) | Failure(message: string)
}

=== FILE: paging.dfy ===
/** Server-side pagination of the listing endpoint: fixed pages of `Limit` rows cut
    from the full row sequence with JavaScript's `Array.prototype.slice`. */
module Paging {

  /** Rows per page on the server. */
  const Limit: nat := 20

  function Min(a: int, b: int): int { if a <= b then a else b }

  /** How `slice` normalises one bound against a length: a negative bound counts from the
      end (floored at 0), a bound past the end is clipped to the length. */
  function ClampIndex(i: int, len: nat): (r: nat)
    ensures r <= len
    ensures 0 <= i ==> r == Min(i, len)
    ensures i < 0 ==> r == (if len + i < 0 then 0 else len + i)
  {
    if i < 0 then (if len + i < 0 then 0 else len + i)
    else if i > len then len
    else i
  }

  /** `s.slice(start, end)`. */
  function Slice<T>(s: seq<T>, start: int, end: int): (r: seq<T>)
    ensures |r| <= |s|
    ensures 0 <= start <= end ==> r == s[Min(start, |s|)..Min(end, |s|)]
  {
    var a := ClampIndex(start, |s|);
    var b := ClampIndex(end, |s|);
    if a < b then s[a..b] else []
  }

  /** `startIndex` for a requested page. */
  function StartIndex(page: int): int { (page - 1) * Limit }

  /** `endIndex`, one past the last row of the page. */
  function EndIndex(page: int): int { StartIndex(page) + Limit }

  /** The rows served for `page`. */
  function PageOf<T>(rows: seq<T>, page: int): (r: seq<T>)
    ensures page >= 1 ==> r == rows[Min(StartIndex(page), |rows|)..Min(page * Limit, |rows|)]
    ensures page >= 1 ==> |r| <= Limit
    ensures page >= 1 && StartIndex(page) >= |rows| ==> r == []
    ensures page >= 1 ==> forall i :: 0 <= i < |r| ==> r[i] == rows[StartIndex(page) + i]
  {
    Slice(rows, StartIndex(page), EndIndex(page))
  }

  /** Whether the listing reports more rows after `page` of `n`. */
  predicate HasMore(n: nat, page: int)
  {
    EndIndex(page) < n
  }

  /** `hasMore` holds exactly when the rows run past `page` full pages. */
  lemma HasMoreMeansRowsBeyond(n: nat, page: int)
    ensures HasMore(n, page) <==> page * Limit < n
  {
  }

  /** The first page whose listing reports no more rows: the last page a client can reach. */
  function LastPage(n: nat): (p: int)
    ensures p >= 1
    ensures !HasMore(n, p)
    ensures forall q :: 1 <= q < p ==> HasMore(n, q)
    ensures n > 0 ==> StartIndex(p) < n
  {
    if n == 0 then 1
    else
      var p := (n + Limit - 1) / Limit;
      assert (p - 1) * Limit < n <= p * Limit;
      assert forall q :: 1 <= q < p ==> q * Limit <= (p - 1) * Limit;
      p
  }

  /** Pages `1..k` concatenated in order. */
  function PagesThrough<T>(rows: seq<T>, k: nat): seq<T>
  {
    if k == 0 then [] else PagesThrough(rows, k - 1) + PageOf(rows, k)
  }

  /** The first `k` pages are exactly the first `k * Limit` rows (clipped). */
  lemma {:induction false} PagesThroughIsPrefix<T>(rows: seq<T>, k: nat)
    ensures PagesThrough(rows, k) == rows[..Min(k * Limit, |rows|)]
  {
    if k > 0 {
      PagesThroughIsPrefix(rows, k - 1);
      assert StartIndex(k) == (k - 1) * Limit;
      var a := Min((k - 1) * Limit, |rows|);
      var b := Min(k * Limit, |rows|);
      assert a <= b;
      assert rows[..a] + rows[a..b] == rows[..b];
    }
  }

  /** Reading pages from 1 up to the first one without more rows reproduces every row, in order. */
  lemma ReassemblePages<T>(rows: seq<T>)
    ensures PagesThrough(rows, LastPage(|rows|)) == rows
  {
    var p := LastPage(|rows|);
    PagesThroughIsPrefix(rows, p);
    assert Min(p * Limit, |rows|) == |rows|;
  }

  /** Forty-five rows: a full first page with more to come, five rows on page 3, nothing on page 4. */
  lemma FortyFiveRows<T>(rows: seq<T>)
    requires |rows| == 45
    ensures |PageOf(rows, 1)| == 20 && HasMore(45, 1)
    ensures |PageOf(rows, 3)| == 5 && !HasMore(45, 3)
    ensures PageOf(rows, 4) == [] && !HasMore(45, 4)
    ensures LastPage(45) == 3
  {
  }
}

=== FILE: table.dfy ===
/** What the data table shows: the header row, each cell's text and the row numbers. */
module Table {
  import opened Outcomes
  import opened Values
  import opened Paging
  import opened Columns

  /** Rows per page as the client numbers them. */
  const RowsPerPage: int := 20

  /** The header row: the first row's keys without the hidden columns, none without data. */
  function Headers(data: seq<Row>, hidden: seq<Key>): (r: seq<Key>)
    ensures data == [] ==> r == []
    ensures data != [] ==> IsSubsequence(r, Keys(data[0]))
    ensures data != [] ==> forall k :: k in r <==> k in Keys(data[0]) && k !in hidden
  {
    var allHeaders := if |data| > 0 then Keys(data[0]) else [];
    VisibleKeys(allHeaders, hidden)
  }

  /** `row[header] || '-'`: the cell's text, or a dash for a falsy value. */
  function DisplayCell(row: Row, header: Key): (r: string)
    ensures r != ""
    ensures r == "-" <==> !Truthy(Get(row, header)) || Text(Get(row, header)) == "-"
  {
    var v := Get(row, header);
    if Truthy(v) then Render(v.value) else "-"
  }

  /** The shown cell agrees with the text the export measures, except that an empty text is a dash. */
  lemma DisplayAgreesWithExportText(row: Row, header: Key)
    ensures DisplayCell(row, header) == (if Text(Get(row, header)) == "" then "-" else Text(Get(row, header)))
  {
  }

  /** The number shown in the "No" column for the `index`-th row on the page. */
  function RowNumber(currentPage: int, index: int): int
  {
    (currentPage - 1) * RowsPerPage + index + 1
  }

  /** The shown number of a served row is its 1-based position in the full row set. */
  lemma RowNumberIsPosition<T>(rows: seq<T>, page: int, index: int)
    requires page >= 1
    requires 0 <= index < |PageOf(rows, page)|
    ensures 1 <= RowNumber(page, index) <= |rows|
    ensures PageOf(rows, page)[index] == rows[RowNumber(page, index) - 1]
  {
  }

  /** Numbers run on across a page break: after a full page, the first row of the next page is
      the row that follows the last row of this one in the full row set, numbered one higher. */
  lemma RowNumbersContinueAcrossPages<T>(rows: seq<T>, page: int)
    requires page >= 1
    requires |PageOf(rows, page)| == Limit
    requires PageOf(rows, page + 1) != []
    ensures var last := RowNumber(page, Limit - 1);
            && RowNumber(page + 1, 0) == last + 1
            && last < |rows|
            && PageOf(rows, page)[Limit - 1] == rows[last - 1]
            && PageOf(rows, page + 1)[0] == rows[last]
  {
    RowNumberIsPosition(rows, page, Limit - 1);
    RowNumberIsPosition(rows, page + 1, 0);
  }
}

=== FILE: values.dfy ===
/** Cell values and row objects as the spreadsheet backend delivers them, with the
    JavaScript coercions the dashboard applies to them (`||` truthiness and `String(..)`). */
module Values {
  import opened Outcomes

  /** A JSON cell value: a string, an integral number, or `null`. */
  datatype Value = Str(s: string) | Num(n: int) | Null

  type Key = string

  /** A row object: its own properties in `Object.keys` enumeration order. */
  type Row = seq<(Key, Value)>

  /** The row's keys, in enumeration order. */
  function Keys(row: Row): seq<Key>
  {
    seq(|row|, i requires 0 <= i < |row| => row[i].0)
  }

  /** A JavaScript object never holds the same own key twice. */
  predicate WellFormed(row: Row)
  {
    forall i, j :: 0 <= i < j < |row| ==> row[i].0 != row[j].0
  }

  /** Property access `row[key]`: `None` stands for `undefined`. */
  function Get(row: Row, key: Key): (r: Option<Value>)
    ensures r.None? <==> key !in Keys(row)
    ensures r.Some? ==> (key, r.value) in row
  {
    if row == [] then None
    else if row[0].0 == key then
      assert Keys(row)[0] == key;
      Some(row[0].1)
    else
      assert Keys(row) == [row[0].0] + Keys(row[1..]);
      Get(row[1..], key)
  }

  /** In a well-formed row every entry is what property access on its key returns. */
  lemma {:induction false} GetEntry(row: Row, i: nat)
    requires WellFormed(row)
    requires i < |row|
    ensures Get(row, row[i].0) == Some(row[i].1)
  {
    if i > 0 {
      assert WellFormed(row[1..]) by {
        forall a, b | 0 <= a < b < |row[1..]| ensures row[1..][a].0 != row[1..][b].0 {
          assert row[1..][a] == row[a + 1] && row[1..][b] == row[b + 1];
        }
      }
      assert row[0].0 != row[i].0;
      GetEntry(row[1..], i - 1);
      assert row[1..][i - 1] == row[i];
    }
  }

  /** JavaScript truthiness of a property read: `undefined`, `null`, `""` and `0` are falsy. */
  predicate Truthy(v: Option<Value>)
  {
    match v
    case None => false
    case Some(Null) => false
    case Some(Str(s)) => s != ""
    case Some(Num(n)) => n != 0
  }

  /** The decimal digit for `d`. */
  function Digit(d: nat): char
    requires d < 10
  {
    "0123456789"[d]
  }

  /** Decimal rendering of a natural number, most significant digit first, no leading zeros. */
  function Natural(n: nat): (r: string)
    ensures |r| >= 1
    ensures r[0] == '0' ==> n == 0
    ensures r[0] == '0' ==> r == "0"
  {
    if n < 10 then [Digit(n)] else Natural(n / 10) + [Digit(n % 10)]
  }

  /** A decimal digit character. */
  predicate IsDigit(c: char)
  {
    '0' <= c <= '9'
  }

  /** A string of decimal digits only. */
  predicate Digits(s: string)
  {
    forall i :: 0 <= i < |s| ==> IsDigit(s[i])
  }

  /** The number a string of decimal digits denotes, most significant digit first. */
  function DecimalValue(s: string): nat
    requires Digits(s)
  {
    if s == [] then 0
    else
      var init := s[..|s| - 1];
      assert forall i :: 0 <= i < |init| ==> init[i] == s[i];
      assert IsDigit(s[|s| - 1]);
      DecimalValue(init) * 10 + (s[|s| - 1] as int - '0' as int)
  }

  /** The rendering of `n` is made of digits only and reads back to `n`. */
  lemma {:induction false} NaturalRoundTrip(n: nat)
    ensures Digits(Natural(n)) && DecimalValue(Natural(n)) == n
  {
    var r := Natural(n);
    if n >= 10 {
      var init := Natural(n / 10);
      NaturalRoundTrip(n / 10);
      assert r == init + [Digit(n % 10)];
      assert r[..|r| - 1] == init;
    }
  }

  /** `String(n)` for an integer: a minus sign exactly when `n < 0`, then digits that read back
      to the magnitude of `n`. */
  lemma RenderNumberRoundTrip(n: int)
    ensures var r := Render(Num(n));
            && (r[0] == '-' <==> n < 0)
            && var digits := if n < 0 then r[1..] else r;
               && |digits| >= 1
               && (digits[0] == '0' ==> digits == "0")
               && Digits(digits) && DecimalValue(digits) == (if n < 0 then -n else n)
  {
    var r := Render(Num(n));
    if n < 0 {
      var d := Natural(-n);
      assert r == "-" + d;
      NaturalRoundTrip(-n);
      assert r[1..] == d;
    } else {
      var d := Natural(n);
      assert r == d;
      NaturalRoundTrip(n);
      assert IsDigit(d[0]);
    }
  }

  /** `String(v)` for a cell value. */
  function Render(v: Value): (r: string)
    ensures v.Str? ==> r == v.s
    ensures v.Num? ==> |r| >= 1
    ensures v.Null? ==> r == "null"
  {
    match v
    case Str(s) => s
    case Num(n) => if n < 0 then "-" + Natural(-n) else Natural(n)
    case Null => "null"
  }

  /** `String(row[key] || '')`: the text of a truthy value, otherwise the empty string. */
  function Text(v: Option<Value>): (r: string)
    ensures r != "" <==> Truthy(v)
    ensures Truthy(v) ==> r == Render(v.value)
  {
    if Truthy(v) then Render(v.value) else ""
  }
}
